=== FILE: README.md ===
# Real-estate contract: a Dafny model of the transaction check

This project models the transaction check of a real-estate marketplace built on a
ledger platform. The contract `RealEstateContract` judges proposed transactions. A
transaction consumes input states, produces output states and carries one command
tag, a set of signer keys and an optional time window. Each state is either a
`RealEstate` (a property with owner, optional tenant, price and address) or a
`BankAccount` (an anonymously owned, issued balance with a maturity date and the
facts a lender checks). Cash states of the platform's cash contract can appear among
the states too. The model keeps only their owner and amount.

The check is modelled as a pure function `Contracts.Verify(tx): Outcome`:

- `Accept` when every clause of the command holds;
- `Reject(label)` with the label of the first labelled clause that fails, as the
  source's `requireThat` blocks do;
- `Error(kind)` when a step between the clauses throws. Such a step is `single()` on
  a list of the wrong length, a cast of a state to the wrong record, the cash
  aggregation, a missing time-window bound, or an unknown command.

Each command's rule set is a function (`CheckRegister` … `CheckIssue`). It is written
with Dafny's `:-` in the source's clause order. Its contract states, in declarative
form, exactly when it accepts.

Files:

- `wrappers.dfy`: `Option` and `Result`.
- `ledger.dfy`: keys, parties, amounts, instants, time windows, error kinds, `single()`.
- `commands.dfy`: the command tags.
- `real_estate.dfy` and `bank_account.dfy`: the two state records and their helpers.
- `contracts.dfy`: the rule sets and `Verify`.
- `contract_properties.dfy`: lemmas relating several calls.

## Behaviour of note

Sell, SellWithLoan and Rent read one state as two records:

- Sell first reads the single input and the single output as real estates. It then
  reads the same two states as bank accounts.
- SellWithLoan and Rent do the same with the single output.

A state is one record or the other, so these three commands never accept. The model
reproduces this and does not repair it:

- `CheckSell`, `CheckSellWithLoan` and `CheckRent` all ensure `r.Stop?`.
- `SellOutcomes`, `SellWithLoanOutcomes` and `RentFailFast` name the only labels that
  can be reported, and show that a transaction passing those clauses ends in a failed
  cast.

Even a plain purchase is not accepted: a change of owner at an unchanged price, signed
by seller and buyer, ends in `Error(ClassCast("BankAccount"))` (`SellScenario`). The clauses that follow the impossible casts
are still modelled, as `SellSettlement`, `LoanSettlement` and `RentSettlement`. The
loan-eligibility clauses are modelled as `LoanEligibility`.

Redeem asks for the paper's face value to have been received in cash and for no
state to be produced. The received amount comes from the cash outputs, so a positive
amount needs a cash output, and that output breaks the second demand. The model takes
the received amount as an input. It proves that under the single assumption
"a positive amount needs a cash output", only a zero-valued paper can be redeemed
(`RedeemOutcomes`). Issue only accepts positive balances, so an issued paper is never
redeemed (`IssuedPaperIsNeverRedeemed`).

## Model

| member | source | states |
|---|---|---|
| `RealEstates.NewRealEstate` | cordapp-contracts-states/src/main/kotlin/com/gatsinski/rems/RealEstate.kt:13-19 | a real estate built with the tenant at its default has no tenant, and its owner is its only participant |
| `RealEstates.Participants` | cordapp-contracts-states/src/main/kotlin/com/gatsinski/rems/RealEstate.kt:21 | the participants are the owner first, then the tenant if there is one; there is one participant exactly when there is no tenant |
| `RealEstates.KeySet` | cordapp-contracts-states/src/main/kotlin/com/gatsinski/rems/Contracts.kt:97-98 | mapping parties to owning keys and collecting them into a set keeps every party's key, adds no other, and never yields more keys than parties |
| `RealEstates.ParticipantKeys` | cordapp-contracts-states/src/main/kotlin/com/gatsinski/rems/RealEstate.kt:21 | the participants' key set contains the owner's key and the tenant's key, if any, and nothing else |
| `RealEstates.ParticipantKeysClosedForm` | cordapp-contracts-states/src/main/kotlin/com/gatsinski/rems/RealEstate.kt:21 | the key set is `{owner}` without a tenant and `{owner, tenant}` with one |
| `RealEstates.SelfTenantCollapses` | cordapp-contracts-states/src/main/kotlin/com/gatsinski/rems/RealEstate.kt:21 | a tenant equal to the owner gives a two-entry participant list but a one-key set |
| `RealEstates.OwnerCopyEquality` | cordapp-contracts-states/src/main/kotlin/com/gatsinski/rems/RealEstate.kt:13-19 | `input == output.copy(owner = input.owner)` holds exactly when the two agree on id, price, tenant and address |
| `RealEstates.TenantCopyEquality` | cordapp-contracts-states/src/main/kotlin/com/gatsinski/rems/Contracts.kt:143-144 | `input == output.copy(tenant = input.tenant)` holds exactly when the two agree on id, owner, price and address |
| `RealEstates.WithNewOwner` | cordapp-contracts-states/src/main/kotlin/com/gatsinski/rems/RealEstate.kt:22-24 | re-owning a real estate always fails as not implemented and never produces a state |
| `BankAccounts.Participants` | cordapp-contracts-states/src/main/kotlin/com/gatsinski/rems/BankAccount.kt:25 | an account has exactly one participant, its owner |
| `BankAccounts.WithoutOwner` | cordapp-contracts-states/src/main/kotlin/com/gatsinski/rems/BankAccount.kt:27 | blanking the owner sets the owner's key to the null key and keeps every other field |
| `BankAccounts.WithoutOwnerGroups` | cordapp-contracts-states/src/main/kotlin/com/gatsinski/rems/BankAccount.kt:27 | two accounts blank to the same account exactly when they agree on every field except the owner |
| `BankAccounts.WithNewOwner` | cordapp-contracts-states/src/main/kotlin/com/gatsinski/rems/BankAccount.kt:28 | re-owning succeeds exactly for an anonymous new owner, keeps every other field, and returns the commercial-paper `Move` rather than this contract's `Move`; a well-known new owner is a cast error |
| `BankAccounts.WithNewOwnerKeepsGroup` | cordapp-contracts-states/src/main/kotlin/com/gatsinski/rems/BankAccount.kt:27-28 | a re-owned account blanks to the same account as the original |
| `Contracts.SingleRealEstate` | cordapp-contracts-states/src/main/kotlin/com/gatsinski/rems/Contracts.kt:82 | `single() as RealEstate` yields the estate exactly for a one-element list holding one; an empty list, a longer list and a bank account each give their own error |
| `Contracts.SingleBankAccount` | cordapp-contracts-states/src/main/kotlin/com/gatsinski/rems/Contracts.kt:172 | `single() as BankAccount` yields the account exactly for a one-element list holding one; the other cases each give their own error |
| `Contracts.RequireBound` | cordapp-contracts-states/src/main/kotlin/com/gatsinski/rems/Contracts.kt:185 | an absent window bound is the distinct missing-timestamp error carrying the command's message, not a clause rejection |
| `Contracts.AffectedKeys` | cordapp-contracts-states/src/main/kotlin/com/gatsinski/rems/Contracts.kt:97-98 | the keys required for a change contain both owners and every present tenant, and nothing other than those owner and tenant keys |
| `Contracts.OwnershipTransfer` | cordapp-contracts-states/src/main/kotlin/com/gatsinski/rems/Contracts.kt:92-96 | the three ownership clauses pass exactly when the owner changes, nothing else does, and the new owner is not the tenant; otherwise the first failing clause, in source order, names the rejection |
| `Contracts.LoanEligibility` | cordapp-contracts-states/src/main/kotlin/com/gatsinski/rems/Contracts.kt:120-122 | eligibility is `quantity > 5000 && isWorking && age > 25`, both inequalities strict; each failing conjunct rejects with its own label, in order |
| `Contracts.SellSettlement` | cordapp-contracts-states/src/main/kotlin/com/gatsinski/rems/Contracts.kt:100-106 | after its account casts, Sell would demand single account states, a balance covering the price, and signers exactly the participants of both estates |
| `Contracts.LoanSettlement` | cordapp-contracts-states/src/main/kotlin/com/gatsinski/rems/Contracts.kt:118-134 | after its account cast, SellWithLoan would demand eligibility, cover of the price, the ownership clauses and exact signers |
| `Contracts.RentSettlement` | cordapp-contracts-states/src/main/kotlin/com/gatsinski/rems/Contracts.kt:147-152 | after its account cast, Rent would demand cover of the rent and signers exactly owner and new tenant |
| `Contracts.CheckRegister` | cordapp-contracts-states/src/main/kotlin/com/gatsinski/rems/Contracts.kt:78-86 | Register passes exactly when there are no inputs, one tenant-free real estate output, and the signers are exactly `{owner}`; otherwise the first failing clause, in source order, names the rejection, and the only error is the cast |
| `Contracts.CheckSell` | cordapp-contracts-states/src/main/kotlin/com/gatsinski/rems/Contracts.kt:87-110 | Sell never passes; it can only reject with a count or ownership label, or fail a cast; the input count, the output count, the real-estate casts and then the first failing ownership clause (as `OwnershipTransfer` reports it) fire in source order |
| `Contracts.CheckSellWithLoan` | cordapp-contracts-states/src/main/kotlin/com/gatsinski/rems/Contracts.kt:111-135 | SellWithLoan never passes; it can only reject with a count label, or fail a cast; the input count, the output count and the real-estate casts fire in source order |
| `Contracts.CheckRent` | cordapp-contracts-states/src/main/kotlin/com/gatsinski/rems/Contracts.kt:136-153 | Rent never passes; it can only reject with a count or tenancy label, or fail a cast; the input count, the output count and the real-estate casts fire in source order |
| `Contracts.CheckTerminateRent` | cordapp-contracts-states/src/main/kotlin/com/gatsinski/rems/Contracts.kt:154-170 | TerminateRent passes exactly when one estate goes in and out, a tenant is removed, nothing else changes, and the signers are exactly owner and old tenant; otherwise the first failing clause names the rejection |
| `Contracts.CheckMove` | cordapp-contracts-states/src/main/kotlin/com/gatsinski/rems/Contracts.kt:171-179 | Move passes exactly when the single input is an account, its owner's key is among the signers, and there is one output; the signer clause fires before the count; errors come only from reading the input |
| `Contracts.CheckRedeem` | cordapp-contracts-states/src/main/kotlin/com/gatsinski/rems/Contracts.kt:181-192 | with the received amount as an input, Redeem passes exactly when the single input is an account, exactly its face amount was received, the lower bound is at or after maturity, there are no outputs, and its owner signs; otherwise the first failing clause names the rejection |
| `Contracts.CheckIssue` | cordapp-contracts-states/src/main/kotlin/com/gatsinski/rems/Contracts.kt:194-205 | Issue passes exactly when the single output is an account issued by a signer, with positive quantity and an upper bound strictly before maturity, and there are no inputs; otherwise the first failing clause names the rejection |
| `Contracts.Check` | cordapp-contracts-states/src/main/kotlin/com/gatsinski/rems/Contracts.kt:77-207 | dispatch on the tag: every clause rejection carries a label of the transaction's own command |
| `Contracts.Verify` | cordapp-contracts-states/src/main/kotlin/com/gatsinski/rems/Contracts.kt:72-208 | rejections carry their command's labels; the invalid-command error never arises for the closed tag set; only Register, TerminateRent, Move, Redeem and Issue can accept |
| `ContractProperties.RegisterAccepted` | cordapp-contracts-states/src/main/kotlin/com/gatsinski/rems/Contracts.kt:78-86 | an accepted registration has no inputs and one tenant-free estate, and its signers equal the estate's participant keys, which are just the owner's |
| `ContractProperties.RegisterRejectsExtraSigner` | cordapp-contracts-states/src/main/kotlin/com/gatsinski/rems/Contracts.kt:84-85 | the signer check is set equality: one extra signer turns an acceptance into the signature rejection |
| `ContractProperties.RegisterScenario` | cordapp-contracts-states/src/main/kotlin/com/gatsinski/rems/Contracts.kt:78-86 | registering a new estate signed by its owner is accepted; with no signer it is rejected for its signatures |
| `ContractProperties.SellOutcomes` | cordapp-contracts-states/src/main/kotlin/com/gatsinski/rems/Contracts.kt:88-101 | Sell never accepts; only count and ownership labels can fire; passing them all ends in the bank-account cast error |
| `ContractProperties.SellScenario` | cordapp-contracts-states/src/main/kotlin/com/gatsinski/rems/Contracts.kt:87-106 | a change of owner at an unchanged price signed by both parties ends in the bank-account cast error |
| `ContractProperties.SellWithLoanOutcomes` | cordapp-contracts-states/src/main/kotlin/com/gatsinski/rems/Contracts.kt:112-122 | SellWithLoan never accepts and never reports an eligibility label; one estate in and out ends in the cast error |
| `ContractProperties.RentFailFast` | cordapp-contracts-states/src/main/kotlin/com/gatsinski/rems/Contracts.kt:136-147 | each tenancy label is reported exactly when the earlier clauses hold and its own fails; passing all four ends in the cast error |
| `ContractProperties.TerminateRentAccepted` | cordapp-contracts-states/src/main/kotlin/com/gatsinski/rems/Contracts.kt:154-170 | an accepted termination had a tenant, removes it, satisfies `output.copy(tenant = input.tenant) == input`, and is signed by exactly owner and old tenant |
| `ContractProperties.RentThenTerminateRestores` | cordapp-contracts-states/src/main/kotlin/com/gatsinski/rems/Contracts.kt:141-165 | a rental passing every tenancy clause, followed by an accepted termination of its output, returns the original estate |
| `ContractProperties.MoveErrors` | cordapp-contracts-states/src/main/kotlin/com/gatsinski/rems/Contracts.kt:172 | no input, several inputs, or an input that is not an account (a real estate or cash) each give their own error before any clause |
| `ContractProperties.MoveSignersMonotone` | cordapp-contracts-states/src/main/kotlin/com/gatsinski/rems/Contracts.kt:174 | Move's signer clause is membership: adding signers keeps an acceptance |
| `ContractProperties.ReownedAccountMoves` | cordapp-contracts-states/src/main/kotlin/com/gatsinski/rems/BankAccount.kt:28 | re-owning an account to an anonymous identity and moving it, signed by the old owner, is accepted |
| `ContractProperties.RedeemErrors` | cordapp-contracts-states/src/main/kotlin/com/gatsinski/rems/Contracts.kt:183-185 | Redeem's errors come in order: reading the input (any input that is not an account, cash included, fails the cast), then the cash aggregation, then the missing lower bound, all before any clause |
| `ContractProperties.RedeemMaturityBoundary` | cordapp-contracts-states/src/main/kotlin/com/gatsinski/rems/Contracts.kt:187 | every lower bound before maturity, one unit before included, rejects for maturity; one at maturity goes on to the later clauses |
| `ContractProperties.RedeemOutcomes` | cordapp-contracts-states/src/main/kotlin/com/gatsinski/rems/Contracts.kt:184-189 | if a positive received amount needs a cash output, an accepted Redeem consumed a paper of face value zero |
| `ContractProperties.IssuedPaperIsNeverRedeemed` | cordapp-contracts-states/src/main/kotlin/com/gatsinski/rems/Contracts.kt:184-200 | a paper produced by an accepted Issue is never accepted by Redeem, under the same assumption about received cash |
| `ContractProperties.IssueErrors` | cordapp-contracts-states/src/main/kotlin/com/gatsinski/rems/Contracts.kt:195-196 | a wrong output count, an output that is not an account (a real estate or cash), or a missing upper bound each give their own error before any clause |
| `ContractProperties.VerifyIgnoresLoan` | cordapp-contracts-states/src/main/kotlin/com/gatsinski/rems/BankAccount.kt:23 | clearing the `loan` field of every state leaves the verdict unchanged |

## Left out

- `generateIssue`, `generateMove` and `generateRedeem` are left out. They fill a
  platform transaction builder, and `generateRedeem` uses the platform's cash
  selection; both are outside this model. `ReownedAccountMoves` covers the states
  `generateMove` would produce.
- Selecting the single command (`requireSingleCommand`) is left out. The view carries
  exactly one tag from the closed set, so the "Invalid command" branch cannot be
  reached. `InvalidCommand` stays as an error kind, and `Verify` proves it never
  arises.
- The cash aggregation `sumCashBy` is a platform call. The model takes its result as
  the view's `received` field, with `None` standing for the call throwing. Cash states
  are among the outputs: they count for the output-count clauses and fail the casts.
  The only link the model assumes between them and `received` is
  `PositiveReceiptHasCash`.
- Contracts.CheckRedeem: its acceptance is reachable in the model because `received`
  is an input. With a real aggregation, a positive face value received needs a cash
  output, which fails "the paper must be destroyed" (`RedeemOutcomes`).
- Signature verification, identities and their certificates, notarisation, and
  platform-side grouping of states are left out. Signers are a given set of keys.
- Signers are a set of keys. The source holds a list, but it only ever converts the
  list to a set or tests membership in it.
- The platform's time window always has at least one bound. The model admits a window
  with neither bound, which every command that needs a bound treats as missing.
- Parties are compared by owning key, as the platform does. One exception: the model
  keeps a well-known and an anonymous identity with the same key distinct inside
  `AbstractParty`. This can matter only for comparing the issuer of two amounts.
- `Amount` keeps quantity and issued token only; its display token size is left out.
- The source's `Int` price and age and `Long` quantity are unbounded integers here.
  The contract only compares them and never does arithmetic on them, so the width
  does not change a verdict.
- The commented-out clauses and the unused import in the contract file are not
  modelled.
- The SellWithLoan test file
  (`cordapp/src/test/kotlin/com/gatsinski/rems/contracts/SellWithLoanCommandTests.kt`)
  does not match the contract code. It builds states with a `Bank` class, which the
  contract code does not define, and a `RealEstate` without its required `value`. It also expects
  SellWithLoan to verify, which the cast of the output to a bank account rules out.

=== FILE: bank_account.dfy ===
/** The bank-account record: an anonymously owned, issued balance with a
    maturity date and the facts a lender looks at. */
module BankAccounts {
  import opened Wrappers
  import opened Ledger
  import opened Commands

  /** A bank account. `currency` is the balance; `loan` defaults to absent and
      is never read by the contract. */
  datatype BankAccount = BankAccount(
    owner: AnonymousParty,
    issuance: PartyAndReference,
    currency: Amount,
    maturityDate: Instant,
    isWorking: bool,
    age: int,
    accountNumber: string,
    accountName: string,
    loan: Option<int>)

  /** The identities whose consent the state requires: its owner alone. */
  function Participants(account: BankAccount): (ps: seq<AnonymousParty>)
    ensures |ps| == 1
    ensures forall p :: p in ps <==> p == account.owner
  {
    [account.owner]
  }

  /** `a` and `b` agree on every field except possibly `owner`. */
  predicate SameExceptOwner(a: BankAccount, b: BankAccount) {
    && a.issuance == b.issuance
    && a.currency == b.currency
    && a.maturityDate == b.maturityDate
    && a.isWorking == b.isWorking
    && a.age == b.age
    && a.accountNumber == b.accountNumber
    && a.accountName == b.accountName
    && a.loan == b.loan
  }

  /** The account with its owner blanked out to the null key; accounts that
      differ only in owner become equal under it. */
  function WithoutOwner(account: BankAccount): (r: BankAccount)
    ensures r.owner.owningKey == NullPublicKey
    ensures SameExceptOwner(account, r)
  {
    account.(owner := AnonymousParty(NullPublicKey))
  }

  /** Blanking the owner identifies two accounts exactly when they agree on
      every other field. */
  lemma WithoutOwnerGroups(a: BankAccount, b: BankAccount)
    ensures WithoutOwner(a) == WithoutOwner(b) <==> SameExceptOwner(a, b)
  {
  }

  /** Re-owning an account: the new owner must be anonymous (the source casts
      it), and the command handed back is the commercial-paper contract's
      `Move`, not this contract's. */
  function WithNewOwner(account: BankAccount, newOwner: AbstractParty): (r: Result<CommandAndState<BankAccount>, ErrorKind>)
    ensures r.Success? <==> newOwner.Anonymous?
    ensures r.Failure? ==> r.error == ClassCast("AnonymousParty")
    ensures r.Success? ==>
              && r.value.ownableState.owner == newOwner.anonymous
              && SameExceptOwner(account, r.value.ownableState)
              && r.value.command == CommercialPaperMove
  {
    match newOwner
    case Anonymous(a) => Success(CommandAndState(CommercialPaperMove, account.(owner := a)))
    case WellKnown(_) => Failure(ClassCast("AnonymousParty"))
  }

  /** Re-owning keeps the account in the same group, the grouping being by
      every field except the owner. */
  lemma WithNewOwnerKeepsGroup(account: BankAccount, newOwner: AbstractParty)
    requires WithNewOwner(account, newOwner).Success?
    ensures WithoutOwner(WithNewOwner(account, newOwner).value.ownableState) == WithoutOwner(account)
  {
  }
}

=== FILE: commands.dfy ===
/** The command tags a real-estate transaction can carry, and the pairing of a
    command with a re-owned state that ownable states hand back. */
module Commands {

  /** The contract's closed set of tags: five about properties, three about
      bank accounts. */
  datatype Command =
    | Register | Sell | SellWithLoan | Rent | TerminateRent
    | Move | Redeem | Issue

  /** Command data as the platform sees it: one of this contract's tags, or the
      `Move` tag of the platform's commercial-paper contract, which is a
      different type altogether. */
  datatype CommandData = ContractCommand(command: Command) | CommercialPaperMove

  /** What `withNewOwner` returns: the command justifying a change of owner and
      the state after it. */
  datatype CommandAndState<S> = CommandAndState(command: CommandData, ownableState: S)
}

=== FILE: contract_properties.dfy ===
/** Properties of the contract's verdict that relate several calls, spell out
    the order of its clauses, or follow from how its steps are arranged. */
module ContractProperties {
  import opened Wrappers
  import opened Ledger
  import opened Commands
  import opened RealEstates
  import opened BankAccounts
  import opened Contracts

  // Register.

  /** Signing is exact for Register: an accepted registration with one more
      signer is rejected for its signatures. */
  lemma RegisterRejectsExtraSigner(tx: TxView, extra: PublicKey)
    requires tx.command == Register && Verify(tx) == Accept
    requires extra !in tx.signers
    ensures Verify(tx.(signers := tx.signers + {extra})) == Reject(RegisterOwnerSigns)
  {
    var estate := tx.outputs[0].realEstate;
    ParticipantKeysClosedForm(estate);
    assert tx.signers + {extra} != ParticipantKeys(estate) by {
      assert extra in tx.signers + {extra};
    }
  }

  /** An accepted registration: nothing consumed, one tenant-free real estate
      produced, and the signers are exactly its participants' keys, which is
      its owner's key alone. */
  lemma RegisterAccepted(tx: TxView)
    requires tx.command == Register && Verify(tx) == Accept
    ensures |tx.inputs| == 0 && |tx.outputs| == 1 && tx.outputs[0].RealEstateState?
    ensures tx.outputs[0].realEstate.tenant.None?
    ensures tx.signers == ParticipantKeys(tx.outputs[0].realEstate)
    ensures tx.signers == {tx.outputs[0].realEstate.owner.owningKey}
  {
    ParticipantKeysClosedForm(tx.outputs[0].realEstate);
  }

  /** A registration of a freshly built real estate signed by its owner is
      accepted; with no signer it is rejected for its signatures. */
  lemma RegisterScenario(id: UniqueIdentifier, owner: Party)
    ensures var estate := NewRealEstate(id, owner, 1000, "X");
            Verify(TxView([], [RealEstateState(estate)], Register, {owner.owningKey}, None, None)) == Accept
    ensures var estate := NewRealEstate(id, owner, 1000, "X");
            Verify(TxView([], [RealEstateState(estate)], Register, {}, None, None)) == Reject(RegisterOwnerSigns)
  {
    var estate := NewRealEstate(id, owner, 1000, "X");
    assert owner.owningKey in ParticipantKeys(estate);
  }

  // Sell, SellWithLoan and Rent read one state as two records.

  /** Sell never accepts: the clauses that can fire are the counts and the
      three ownership clauses; a transaction that passes them all ends in a
      failed cast to a bank account. */
  lemma SellOutcomes(tx: TxView)
    requires tx.command == Sell
    ensures Verify(tx) != Accept
    ensures Verify(tx).Reject? ==>
              Verify(tx).reason in {BuySingleInput, BuySingleOutput, BuyOwnerChanges, BuyOnlyOwnerChanges,
                                    BuyTenantIsNotBuyer}
    ensures OneEstateInOneOut(tx)
            && OwnershipTransfer(tx.inputs[0].realEstate, tx.outputs[0].realEstate).Continue? ==>
              Verify(tx) == Error(ClassCast("BankAccount"))
  {
  }

  /** A change of owner at an unchanged price, signed by seller and buyer, is
      not accepted: it passes every ownership clause and then fails the cast of
      the same input to a bank account. */
  lemma SellScenario(id: UniqueIdentifier, seller: Party, buyer: Party)
    requires seller != buyer
    ensures var before := NewRealEstate(id, seller, 1000, "X");
            var after := before.(owner := buyer);
            Verify(TxView([RealEstateState(before)], [RealEstateState(after)], Sell,
                          {seller.owningKey, buyer.owningKey}, None, None))
            == Error(ClassCast("BankAccount"))
  {
  }

  /** SellWithLoan never accepts and never reaches its eligibility clauses:
      once the counts hold and both states are real estates, the output is
      cast to a bank account and that fails. */
  lemma SellWithLoanOutcomes(tx: TxView)
    requires tx.command == SellWithLoan
    ensures Verify(tx) != Accept
    ensures Verify(tx) !in {Reject(LoanBalanceAboveFloor), Reject(LoanOwnerIsWorking), Reject(LoanOwnerOldEnough)}
    ensures OneEstateInOneOut(tx) ==> Verify(tx) == Error(ClassCast("BankAccount"))
  {
  }

  /** Rent's clauses fire in order: each rejection implies that every earlier
      clause held and its own failed, and a transaction passing all four ends
      in a failed cast to a bank account, so Rent never accepts. */
  lemma RentFailFast(tx: TxView)
    requires tx.command == Rent && OneEstateInOneOut(tx)
    ensures var input := tx.inputs[0].realEstate;
            Verify(tx) == Reject(RentNoPreviousTenant) <==> input.tenant.Some?
    ensures var input := tx.inputs[0].realEstate;
            var output := tx.outputs[0].realEstate;
            Verify(tx) == Reject(RentTenantChanges) <==> input.tenant.None? && output.tenant.None?
    ensures var input := tx.inputs[0].realEstate;
            var output := tx.outputs[0].realEstate;
            Verify(tx) == Reject(RentOnlyTenantChanges) <==>
              input.tenant.None? && output.tenant.Some? && !DiffersAtMostInTenant(input, output)
    ensures var input := tx.inputs[0].realEstate;
            var output := tx.outputs[0].realEstate;
            Verify(tx) == Reject(RentOwnerIsNotTenant) <==>
              input.tenant.None? && output.tenant == Some(output.owner) && DiffersAtMostInTenant(input, output)
    ensures var input := tx.inputs[0].realEstate;
            var output := tx.outputs[0].realEstate;
            Verify(tx) == Error(ClassCast("BankAccount")) <==>
              && input.tenant.None? && output.tenant.Some? && output.tenant != Some(output.owner)
              && DiffersAtMostInTenant(input, output)
  {
    TenantCopyEquality(tx.inputs[0].realEstate, tx.outputs[0].realEstate);
  }

  // TerminateRent.

  /** An accepted termination removes a tenant that was there, changes nothing
      else, and is signed by exactly the owner and the outgoing tenant. */
  lemma TerminateRentAccepted(tx: TxView)
    requires tx.command == TerminateRent && Verify(tx) == Accept
    ensures OneEstateInOneOut(tx)
    ensures var input := tx.inputs[0].realEstate;
            var output := tx.outputs[0].realEstate;
            && input.tenant.Some?
            && output.tenant.None?
            && output.(tenant := input.tenant) == input
            && tx.signers == {input.owner.owningKey, input.tenant.value.owningKey}
  {
  }

  /** A Rent from `a` to `b` that passes all four tenancy clauses, followed by
      an accepted TerminateRent from `b` to `c`, returns to `a`. */
  lemma RentThenTerminateRestores(rent: TxView, terminate: TxView)
    requires rent.command == Rent && OneEstateInOneOut(rent)
    requires Verify(rent) == Error(ClassCast("BankAccount"))
    requires terminate.command == TerminateRent && Verify(terminate) == Accept
    requires terminate.inputs[0] == rent.outputs[0]
    ensures terminate.outputs[0] == rent.inputs[0]
  {
    RentFailFast(rent);
  }

  // Move.

  /** Move fails before any clause when the consumed states are not a single
      bank account, with the error of the step that fails. */
  lemma MoveErrors(tx: TxView)
    requires tx.command == Move
    ensures |tx.inputs| == 0 ==> Verify(tx) == Error(ListIsEmpty)
    ensures |tx.inputs| > 1 ==> Verify(tx) == Error(ListHasMoreThanOneElement)
    ensures |tx.inputs| == 1 && !tx.inputs[0].BankAccountState? ==> Verify(tx) == Error(ClassCast("BankAccount"))
    ensures Verify(tx).Reject? ==> |tx.inputs| == 1 && tx.inputs[0].BankAccountState?
  {
  }

  /** Move's acceptance depends on the signers only through the owner's key
      being among them: adding signers never turns an acceptance into a
      rejection. */
  lemma MoveSignersMonotone(tx: TxView, more: set<PublicKey>)
    requires tx.command == Move && Verify(tx) == Accept
    ensures Verify(tx.(signers := tx.signers + more)) == Accept
  {
  }

  /** Re-owning an account to an anonymous identity and moving it, signed by
      the old owner, is accepted. */
  lemma ReownedAccountMoves(account: BankAccount, newOwner: AnonymousParty, signers: set<PublicKey>,
                            window: Option<TimeWindow>, received: Option<Amount>)
    requires account.owner.owningKey in signers
    ensures BankAccounts.WithNewOwner(account, Anonymous(newOwner)).Success?
    ensures var moved := BankAccounts.WithNewOwner(account, Anonymous(newOwner)).value.ownableState;
            Verify(TxView([BankAccountState(account)], [BankAccountState(moved)], Move, signers, window, received))
            == Accept
  {
  }

  // Redeem.

  /** Redeem's errors, in order: the single-account steps, then the cash
      aggregation, then the missing lower bound, each before any clause. */
  lemma RedeemErrors(tx: TxView)
    requires tx.command == Redeem
    ensures |tx.inputs| == 0 ==> Verify(tx) == Error(ListIsEmpty)
    ensures |tx.inputs| > 1 ==> Verify(tx) == Error(ListHasMoreThanOneElement)
    ensures |tx.inputs| == 1 && !tx.inputs[0].BankAccountState? ==> Verify(tx) == Error(ClassCast("BankAccount"))
    ensures |tx.inputs| == 1 && tx.inputs[0].BankAccountState? && tx.received.None? ==>
              Verify(tx) == Error(CashSumFailed)
    ensures |tx.inputs| == 1 && tx.inputs[0].BankAccountState? && tx.received.Some?
            && FromTime(tx.timeWindow).None? ==>
              Verify(tx) == Error(MissingTimestamp(RedemptionsTimestamped))
  {
  }

  /** The maturity clause is `fromTime >= maturityDate`: any lower bound
      before maturity, one unit before included, rejects with it, and at
      maturity the check moves on to the later clauses. */
  lemma RedeemMaturityBoundary(tx: TxView)
    requires tx.command == Redeem
    requires |tx.inputs| == 1 && tx.inputs[0].BankAccountState? && tx.received.Some?
    requires FromTime(tx.timeWindow).Some?
    ensures FromTime(tx.timeWindow).value < tx.inputs[0].account.maturityDate ==>
              Verify(tx) == Reject(PaperMatured)
    ensures FromTime(tx.timeWindow).value == tx.inputs[0].account.maturityDate ==>
              Verify(tx) in {Accept, Reject(FaceValueReceived), Reject(PaperDestroyed), Reject(SignedByPaperOwner)}
  {
  }

  /** The one fact about the cash aggregation the model relies on: an
      aggregation over the outputs yields a positive amount only when some
      output is a cash state. */
  predicate PositiveReceiptHasCash(tx: TxView) {
    tx.received.Some? && tx.received.value.quantity > 0 ==>
      exists i :: 0 <= i < |tx.outputs| && tx.outputs[i].CashState?
  }

  /** Redeem demands that the face value was received and that nothing is
      produced. A positive amount received comes with a cash output, so only
      a paper with a face value of zero can be redeemed. */
  lemma RedeemOutcomes(tx: TxView)
    requires tx.command == Redeem && PositiveReceiptHasCash(tx)
    ensures Verify(tx) == Accept ==>
              |tx.inputs| == 1 && tx.inputs[0].BankAccountState? && tx.inputs[0].account.currency.quantity == 0
  {
  }

  /** Issue only accepts a positive balance, so a paper that an accepted Issue
      produced is never redeemed. */
  lemma IssuedPaperIsNeverRedeemed(issue: TxView, redeem: TxView)
    requires issue.command == Issue && Verify(issue) == Accept
    requires redeem.command == Redeem && redeem.inputs == issue.outputs
    requires PositiveReceiptHasCash(redeem)
    ensures Verify(redeem) != Accept
  {
    RedeemOutcomes(redeem);
  }

  // Issue.

  /** Issue's errors: the produced states must be a single bank account and
      the window must have an upper bound, both before any clause. */
  lemma IssueErrors(tx: TxView)
    requires tx.command == Issue
    ensures |tx.outputs| == 0 ==> Verify(tx) == Error(ListIsEmpty)
    ensures |tx.outputs| > 1 ==> Verify(tx) == Error(ListHasMoreThanOneElement)
    ensures |tx.outputs| == 1 && !tx.outputs[0].BankAccountState? ==> Verify(tx) == Error(ClassCast("BankAccount"))
    ensures |tx.outputs| == 1 && tx.outputs[0].BankAccountState? && UntilTime(tx.timeWindow).None? ==>
              Verify(tx) == Error(MissingTimestamp(IssuancesTimestamped))
  {
  }

  // The loan field.

  /** A state with any account's loan cleared. */
  function ClearLoan(s: ContractState): (r: ContractState)
    ensures r.BankAccountState? <==> s.BankAccountState?
    ensures !s.BankAccountState? ==> r == s
    ensures r.BankAccountState? ==> r.account.loan.None? && r.account == s.account.(loan := None)
  {
    match s
    case BankAccountState(account) => BankAccountState(account.(loan := None))
    case _ => s
  }

  /** Every state of a list with its loan cleared. */
  function ClearLoans(states: seq<ContractState>): (r: seq<ContractState>)
    ensures |r| == |states|
    ensures forall i :: 0 <= i < |states| ==> r[i] == ClearLoan(states[i])
  {
    seq(|states|, i requires 0 <= i < |states| => ClearLoan(states[i]))
  }

  /** The contract never reads `loan`: clearing it in every state leaves the
      verdict unchanged. */
  lemma VerifyIgnoresLoan(tx: TxView)
    ensures Verify(tx.(inputs := ClearLoans(tx.inputs), outputs := ClearLoans(tx.outputs))) == Verify(tx)
  {
    var cleared := tx.(inputs := ClearLoans(tx.inputs), outputs := ClearLoans(tx.outputs));
    SingleRealEstateIgnoresLoan(tx.inputs);
    SingleRealEstateIgnoresLoan(tx.outputs);
    SingleBankAccountIgnoresLoan(tx.inputs);
    SingleBankAccountIgnoresLoan(tx.outputs);
    match tx.command
    case Register => assert CheckRegister(cleared) == CheckRegister(tx);
    case Sell => assert CheckSell(cleared) == CheckSell(tx);
    case SellWithLoan => assert CheckSellWithLoan(cleared) == CheckSellWithLoan(tx);
    case Rent => assert CheckRent(cleared) == CheckRent(tx);
    case TerminateRent => assert CheckTerminateRent(cleared) == CheckTerminateRent(tx);
    case Move => assert CheckMove(cleared) == CheckMove(tx);
    case Redeem => assert CheckRedeem(cleared) == CheckRedeem(tx);
    case Issue => assert CheckIssue(cleared) == CheckIssue(tx);
  }

  /** Reading the single real estate is unaffected by clearing loans. */
  lemma SingleRealEstateIgnoresLoan(states: seq<ContractState>)
    ensures SingleRealEstate(ClearLoans(states)) == SingleRealEstate(states)
  {
  }

  /** Reading the single bank account is affected by clearing loans only in
      the loan of the account read. */
  lemma SingleBankAccountIgnoresLoan(states: seq<ContractState>)
    ensures SingleBankAccount(ClearLoans(states)).Continue? == SingleBankAccount(states).Continue?
    ensures SingleBankAccount(states).Stop? ==> SingleBankAccount(ClearLoans(states)) == SingleBankAccount(states)
    ensures SingleBankAccount(states).Continue? ==>
              SingleBankAccount(ClearLoans(states)).value == SingleBankAccount(states).value.(loan := None)
  {
  }
}

=== FILE: contracts.dfy ===
/** The real-estate contract's transaction check: a pure decision over a
    materialised transaction view. Each command runs an ordered list of
    labelled clauses; the first clause that fails rejects with its label.
    Between the clauses sit steps that fail with an error of their own:
    taking the single element of a list, casting a state to a concrete
    record, aggregating cash, and reading a time-window bound. */
module Contracts {
  import opened Wrappers
  import opened Ledger
  import opened Commands
  import opened RealEstates
  import opened BankAccounts

  /** A state as it appears in a transaction: one of this contract's two
      records, or a cash state of the platform's cash contract, kept with its
      owner and amount only. */
  datatype ContractState =
    | RealEstateState(realEstate: RealEstate)
    | BankAccountState(account: BankAccount)
    | CashState(cashOwner: AbstractParty, amount: Amount)

  /** Everything the check reads. `outputs` are all the produced states, cash
      included. `received` is the result of the platform's cash aggregation
      over the outputs for the owner of the consumed account, or `None` when
      that aggregation throws; only `Redeem` consults it. */
  datatype TxView = TxView(
    inputs: seq<ContractState>,
    outputs: seq<ContractState>,
    command: Command,
    signers: set<PublicKey>,
    timeWindow: Option<TimeWindow>,
    received: Option<Amount>)

  /** The verdict: accepted, rejected by a labelled clause, or aborted by an error. */
  datatype Outcome = Accept | Reject(reason: string) | Error(kind: ErrorKind)

  /** Why a check stopped early. */
  datatype StopReason = ClauseFailed(reason: string) | Thrown(kind: ErrorKind)

  /** One step of a check: go on with a value, or stop with a failure. */
  datatype Step<T> = Continue(value: T) | Stop(failure: StopReason) {

    predicate IsFailure() {
      Stop?
    }

    function PropagateFailure<U>(): Step<U>
      requires Stop?
    {
      Stop(failure)
    }

    function Extract(): T
      requires Continue?
    {
      value
    }
  }

  // Clause labels, shared where the source repeats the same text.

  const RegisterNoInputs := "No input states should be consumed when registering a real estate"
  const RegisterSingleOutput := "A single output state should be produced when registering a real estate"
  const RegisterNoTenant := "There should be no tenant when registering a real estate"
  const RegisterOwnerSigns := "The owner should sign the transaction when registering a real estate"

  const BuySingleInput := "A single input state should be consumed when buying a real estate"
  const BuySingleOutput := "A single output state should be produced when buying a real estate"
  const BuyOwnerChanges := "The owner should change when buying a real estate"
  const BuyOnlyOwnerChanges := "Only the owner should change when buying a real estate"
  const BuyTenantIsNotBuyer := "The tenant and the buyer should be different when buying a real estate"
  const BuyerCoversPrice := "Buyer must have the amount greater than the real estate price"
  const BuyAllPartiesSign := "All affected parties should sign the transaction when a real estate is being bought"

  const LoanBalanceAboveFloor := "Owner money is superior than 5000"
  const LoanOwnerIsWorking := "Owner has professional stability"
  const LoanOwnerOldEnough := "Owner has to be at least 25 years old"

  const RentSingleInput := "A single input state should be consumed when renting a real estate"
  const RentSingleOutput := "A single output state should be produced when renting a real estate"
  const RentNoPreviousTenant := "There should be no previous tenant when renting a real estate"
  const RentTenantChanges := "The tenant should change when renting a real estate"
  const RentOnlyTenantChanges := "Only the tenant should change when renting a real estate"
  const RentOwnerIsNotTenant := "The owner and the tenant should be different when renting a real estate"
  const RenterCoversRent := "Buyer must have the amount greater than the real estate rent price"
  const RentBothSign := "Both owner and tenant should sign the transaction when renting a real estate"

  const TerminateSingleInput := "A single input state should be consumed when terminating a real estate rent"
  const TerminateSingleOutput := "A single output state should be produced when terminating a real estate rent"
  const TerminateHadTenant := "There should be a tenant before terminating a real estate rent"
  const TerminateTenantRemoved := "The tenant should be removed when terminating a real estate rent"
  const TerminateOnlyTenantChanges := "Only the tenant should change when terminating a real estate rent"
  const TerminateBothSign := "Both owner and tenant should sign the transaction when terminating a real estate rent"

  const SignedByPaperOwner := "the transaction is signed by the owner of the commercial paper"
  const StatePropagated := "the state is propagated"
  const PaperMatured := "the paper must have matured"
  const FaceValueReceived := "the received amount equals the face value"
  const PaperDestroyed := "the paper must be destroyed"
  const IssuedByCommandSigner := "output states are issued by a command signer"
  const IssuedAmountPositive := "output values sum to more than the inputs"
  const MaturityNotInPast := "the maturity date is not in the past"
  const NoReissue := "can't reissue an existing state"

  const RedemptionsTimestamped := "Redemptions must be timestamped"
  const IssuancesTimestamped := "Issuances must be timestamped"

  /** The loan-eligibility thresholds; both comparisons against them are strict. */
  const LoanFloor := 5000
  const MinimumAge := 25

  /** Every label a command's clauses can report. */
  function ClauseLabels(command: Command): set<string> {
    match command
    case Register => {RegisterNoInputs, RegisterSingleOutput, RegisterNoTenant, RegisterOwnerSigns}
    case Sell =>
      {BuySingleInput, BuySingleOutput, BuyOwnerChanges, BuyOnlyOwnerChanges, BuyTenantIsNotBuyer,
       BuyerCoversPrice, BuyAllPartiesSign}
    case SellWithLoan =>
      {BuySingleInput, BuySingleOutput, LoanBalanceAboveFloor, LoanOwnerIsWorking, LoanOwnerOldEnough,
       BuyerCoversPrice, BuyOwnerChanges, BuyOnlyOwnerChanges, BuyTenantIsNotBuyer, BuyAllPartiesSign}
    case Rent =>
      {RentSingleInput, RentSingleOutput, RentNoPreviousTenant, RentTenantChanges, RentOnlyTenantChanges,
       RentOwnerIsNotTenant, RenterCoversRent, RentBothSign}
    case TerminateRent =>
      {TerminateSingleInput, TerminateSingleOutput, TerminateHadTenant, TerminateTenantRemoved,
       TerminateOnlyTenantChanges, TerminateBothSign}
    case Move => {SignedByPaperOwner, StatePropagated}
    case Redeem => {PaperMatured, FaceValueReceived, PaperDestroyed, SignedByPaperOwner}
    case Issue => {IssuedByCommandSigner, IssuedAmountPositive, MaturityNotInPast, NoReissue}
  }

  // Steps.

  /** A labelled clause: go on when it holds, reject with its label otherwise. */
  function Require(holds: bool, reason: string): (r: Step<()>)
    ensures r.Continue? <==> holds
    ensures r.Stop? ==> r.failure == ClauseFailed(reason)
  {
    if holds then Continue(()) else Stop(ClauseFailed(reason))
  }

  /** `states.single() as RealEstate`. */
  function SingleRealEstate(states: seq<ContractState>): (r: Step<RealEstate>)
    ensures r.Continue? <==> |states| == 1 && states[0].RealEstateState?
    ensures r.Continue? ==> r.value == states[0].realEstate
    ensures |states| == 0 ==> r == Stop(Thrown(ListIsEmpty))
    ensures |states| > 1 ==> r == Stop(Thrown(ListHasMoreThanOneElement))
    ensures |states| == 1 && !states[0].RealEstateState? ==> r == Stop(Thrown(ClassCast("RealEstate")))
  {
    match Single<ContractState>(states)
    case Failure(e) => Stop(Thrown(e))
    case Success(RealEstateState(re)) => Continue(re)
    case Success(_) => Stop(Thrown(ClassCast("RealEstate")))
  }

  /** `states.single() as BankAccount`. */
  function SingleBankAccount(states: seq<ContractState>): (r: Step<BankAccount>)
    ensures r.Continue? <==> |states| == 1 && states[0].BankAccountState?
    ensures r.Continue? ==> r.value == states[0].account
    ensures |states| == 0 ==> r == Stop(Thrown(ListIsEmpty))
    ensures |states| > 1 ==> r == Stop(Thrown(ListHasMoreThanOneElement))
    ensures |states| == 1 && !states[0].BankAccountState? ==> r == Stop(Thrown(ClassCast("BankAccount")))
  {
    match Single<ContractState>(states)
    case Failure(e) => Stop(Thrown(e))
    case Success(BankAccountState(account)) => Continue(account)
    case Success(_) => Stop(Thrown(ClassCast("BankAccount")))
  }

  /** A bound of the time window, or the error `message` when the window or
      that bound is absent. */
  function RequireBound(bound: Option<Instant>, message: string): (r: Step<Instant>)
    ensures r.Continue? <==> bound.Some?
    ensures r.Continue? ==> r.value == bound.value
    ensures r.Stop? ==> r.failure == Thrown(MissingTimestamp(message))
  {
    match bound
    case Some(t) => Continue(t)
    case None => Stop(Thrown(MissingTimestamp(message)))
  }

  /** `timeWindow?.fromTime`. */
  function FromTime(window: Option<TimeWindow>): Option<Instant> {
    match window
    case None => None
    case Some(w) => w.fromTime
  }

  /** `timeWindow?.untilTime`. */
  function UntilTime(window: Option<TimeWindow>): Option<Instant> {
    match window
    case None => None
    case Some(w) => w.untilTime
  }

  /** The keys that must sign a change from `input` to `output`: the
      participants of both. */
  function AffectedKeys(input: RealEstate, output: RealEstate): (ks: set<PublicKey>)
    ensures input.owner.owningKey in ks && output.owner.owningKey in ks
    ensures input.tenant.Some? ==> input.tenant.value.owningKey in ks
    ensures output.tenant.Some? ==> output.tenant.value.owningKey in ks
    ensures forall k :: k in ks ==>
              || k == input.owner.owningKey || k == output.owner.owningKey
              || (input.tenant.Some? && k == input.tenant.value.owningKey)
              || (output.tenant.Some? && k == output.tenant.value.owningKey)
  {
    ParticipantKeys(input) + ParticipantKeys(output)
  }

  /** The account behind a purchase or rental holds at least the price. */
  predicate Covers(account: BankAccount, price: int) {
    account.currency.quantity >= price
  }

  /** The transaction consumes one real estate and produces one. */
  predicate OneEstateInOneOut(tx: TxView) {
    && |tx.inputs| == 1 && tx.inputs[0].RealEstateState?
    && |tx.outputs| == 1 && tx.outputs[0].RealEstateState?
  }

  // Clause groups the commands share.

  /** The three ownership clauses of a purchase, in order: the owner changes,
      nothing else does, and the new owner is not the sitting tenant. */
  function OwnershipTransfer(input: RealEstate, output: RealEstate): (r: Step<()>)
    ensures r.Continue? <==>
              && input.owner != output.owner
              && DiffersAtMostInOwner(input, output)
              && input.tenant != Some(output.owner)
    ensures r.Stop? ==>
              r.failure in {ClauseFailed(BuyOwnerChanges), ClauseFailed(BuyOnlyOwnerChanges),
                            ClauseFailed(BuyTenantIsNotBuyer)}
    ensures input.owner == output.owner ==> r == Stop(ClauseFailed(BuyOwnerChanges))
    ensures input.owner != output.owner && !DiffersAtMostInOwner(input, output) ==>
              r == Stop(ClauseFailed(BuyOnlyOwnerChanges))
    ensures input.owner != output.owner && DiffersAtMostInOwner(input, output)
            && input.tenant == Some(output.owner) ==>
              r == Stop(ClauseFailed(BuyTenantIsNotBuyer))
  {
    OwnerCopyEquality(input, output);
    var _ :- Require(input.owner != output.owner, BuyOwnerChanges);
    var _ :- Require(input == output.(owner := input.owner), BuyOnlyOwnerChanges);
    Require(input.tenant != Some(output.owner), BuyTenantIsNotBuyer)
  }

  /** The loan-eligibility clauses, in order: a balance strictly above the
      floor, a working owner, and an owner strictly older than the minimum age. */
  function LoanEligibility(account: BankAccount): (r: Step<()>)
    ensures r.Continue? <==>
              account.currency.quantity > LoanFloor && account.isWorking && account.age > MinimumAge
    ensures account.currency.quantity <= LoanFloor ==> r == Stop(ClauseFailed(LoanBalanceAboveFloor))
    ensures account.currency.quantity > LoanFloor && !account.isWorking ==>
              r == Stop(ClauseFailed(LoanOwnerIsWorking))
    ensures account.currency.quantity > LoanFloor && account.isWorking && account.age <= MinimumAge ==>
              r == Stop(ClauseFailed(LoanOwnerOldEnough))
  {
    var _ :- Require(account.currency.quantity > LoanFloor, LoanBalanceAboveFloor);
    var _ :- Require(account.isWorking, LoanOwnerIsWorking);
    Require(account.age > MinimumAge, LoanOwnerOldEnough)
  }

  // The parts of Sell, SellWithLoan and Rent that follow their casts of a
  // single state to a bank account. They are separate functions because, in
  // those commands, the state has just been read as a real estate, so no
  // transaction gets past the cast.

  /** What Sell demands once its single input and output are read as bank
      accounts: the output account covers the price, and the participants of
      both real estates sign, exactly. */
  function SellSettlement(tx: TxView, input: RealEstate, output: RealEstate): (r: Step<()>)
    ensures r.Continue? <==>
              && |tx.inputs| == 1 && tx.inputs[0].BankAccountState?
              && |tx.outputs| == 1 && tx.outputs[0].BankAccountState?
              && Covers(tx.outputs[0].account, input.value)
              && tx.signers == AffectedKeys(input, output)
    ensures r.Stop? && r.failure.ClauseFailed? ==> r.failure.reason in {BuyerCoversPrice, BuyAllPartiesSign}
  {
    var _ :- SingleBankAccount(tx.inputs);
    var outputAccount :- SingleBankAccount(tx.outputs);
    var _ :- Require(Covers(outputAccount, input.value), BuyerCoversPrice);
    Require(tx.signers == AffectedKeys(input, output), BuyAllPartiesSign)
  }

  /** What SellWithLoan demands once its single output is read as a bank
      account: loan eligibility, then cover of the price, then the ownership
      clauses, then the signatures. */
  function LoanSettlement(tx: TxView, input: RealEstate, output: RealEstate): (r: Step<()>)
    ensures r.Continue? <==>
              && |tx.outputs| == 1 && tx.outputs[0].BankAccountState?
              && LoanEligibility(tx.outputs[0].account).Continue?
              && Covers(tx.outputs[0].account, input.value)
              && OwnershipTransfer(input, output).Continue?
              && tx.signers == AffectedKeys(input, output)
    ensures r.Stop? && r.failure.ClauseFailed? ==> r.failure.reason in ClauseLabels(SellWithLoan)
  {
    var outputAccount :- SingleBankAccount(tx.outputs);
    var _ :- LoanEligibility(outputAccount);
    var _ :- Require(Covers(outputAccount, input.value), BuyerCoversPrice);
    var _ :- OwnershipTransfer(input, output);
    Require(tx.signers == AffectedKeys(input, output), BuyAllPartiesSign)
  }

  /** What Rent demands once its single output is read as a bank account:
      the account covers the rent, and owner and new tenant sign, exactly. */
  function RentSettlement(tx: TxView, input: RealEstate, output: RealEstate): (r: Step<()>)
    ensures r.Continue? <==>
              && |tx.outputs| == 1 && tx.outputs[0].BankAccountState?
              && Covers(tx.outputs[0].account, input.value)
              && tx.signers == AffectedKeys(input, output)
    ensures r.Stop? && r.failure.ClauseFailed? ==> r.failure.reason in {RenterCoversRent, RentBothSign}
  {
    var outputAccount :- SingleBankAccount(tx.outputs);
    var _ :- Require(Covers(outputAccount, input.value), RenterCoversRent);
    Require(tx.signers == AffectedKeys(input, output), RentBothSign)
  }

  // The eight rule sets.

  /** Register: nothing consumed, one tenant-free real estate produced, signed
      by exactly its participants. */
  function CheckRegister(tx: TxView): (r: Step<()>)
    ensures r.Continue? <==>
              && |tx.inputs| == 0
              && |tx.outputs| == 1
              && tx.outputs[0].RealEstateState?
              && tx.outputs[0].realEstate.tenant.None?
              && tx.signers == {tx.outputs[0].realEstate.owner.owningKey}
    ensures r.Stop? && r.failure.ClauseFailed? ==> r.failure.reason in ClauseLabels(Register)
    ensures r.Stop? && r.failure.Thrown? ==> r.failure.kind == ClassCast("RealEstate")
    // The first clause that fails names the rejection.
    ensures |tx.inputs| != 0 ==> r == Stop(ClauseFailed(RegisterNoInputs))
    ensures |tx.inputs| == 0 && |tx.outputs| != 1 ==> r == Stop(ClauseFailed(RegisterSingleOutput))
    ensures |tx.inputs| == 0 && |tx.outputs| == 1 && !tx.outputs[0].RealEstateState? ==>
              r == Stop(Thrown(ClassCast("RealEstate")))
    ensures |tx.inputs| == 0 && |tx.outputs| == 1 && tx.outputs[0].RealEstateState? ==>
              var estate := tx.outputs[0].realEstate;
              && (estate.tenant.Some? ==> r == Stop(ClauseFailed(RegisterNoTenant)))
              && (estate.tenant.None? && tx.signers != {estate.owner.owningKey} ==>
                    r == Stop(ClauseFailed(RegisterOwnerSigns)))
  {
    var _ :- Require(|tx.inputs| == 0, RegisterNoInputs);
    var _ :- Require(|tx.outputs| == 1, RegisterSingleOutput);
    var output :- SingleRealEstate(tx.outputs);
    var _ :- Require(output.tenant.None?, RegisterNoTenant);
    ParticipantKeysClosedForm(output);
    Require(tx.signers == ParticipantKeys(output), RegisterOwnerSigns)
  }

  /** Sell as written: after the ownership clauses the same single input and
      output, already read as real estates, are cast to bank accounts. */
  function CheckSell(tx: TxView): (r: Step<()>)
    ensures r.Stop?
    ensures r.failure.ClauseFailed? ==>
              r.failure.reason in {BuySingleInput, BuySingleOutput, BuyOwnerChanges, BuyOnlyOwnerChanges,
                                   BuyTenantIsNotBuyer}
    ensures r.failure.Thrown? ==> r.failure.kind in {ClassCast("RealEstate"), ClassCast("BankAccount")}
    // The counts, then the reading of both states as real estates, come first.
    ensures |tx.inputs| != 1 ==> r == Stop(ClauseFailed(BuySingleInput))
    ensures |tx.inputs| == 1 && |tx.outputs| != 1 ==> r == Stop(ClauseFailed(BuySingleOutput))
    ensures |tx.inputs| == 1 && |tx.outputs| == 1 && !OneEstateInOneOut(tx) ==>
              r == Stop(Thrown(ClassCast("RealEstate")))
    // Then the first failing ownership clause is the one reported.
    ensures OneEstateInOneOut(tx) ==>
              var t := OwnershipTransfer(tx.inputs[0].realEstate, tx.outputs[0].realEstate);
              t.Stop? ==> r == t
  {
    var _ :- Require(|tx.inputs| == 1, BuySingleInput);
    var _ :- Require(|tx.outputs| == 1, BuySingleOutput);
    var input :- SingleRealEstate(tx.inputs);
    var output :- SingleRealEstate(tx.outputs);
    var _ :- OwnershipTransfer(input, output);
    SellSettlement(tx, input, output)
  }

  /** Sell with a loan as written: the single output, already read as a real
      estate, is cast to a bank account before any eligibility clause. */
  function CheckSellWithLoan(tx: TxView): (r: Step<()>)
    ensures r.Stop?
    ensures r.failure.ClauseFailed? ==> r.failure.reason in {BuySingleInput, BuySingleOutput}
    ensures r.failure.Thrown? ==> r.failure.kind in {ClassCast("RealEstate"), ClassCast("BankAccount")}
    // The counts, then the reading of both states as real estates, come first.
    ensures |tx.inputs| != 1 ==> r == Stop(ClauseFailed(BuySingleInput))
    ensures |tx.inputs| == 1 && |tx.outputs| != 1 ==> r == Stop(ClauseFailed(BuySingleOutput))
    ensures |tx.inputs| == 1 && |tx.outputs| == 1 && !OneEstateInOneOut(tx) ==>
              r == Stop(Thrown(ClassCast("RealEstate")))
  {
    var _ :- Require(|tx.inputs| == 1, BuySingleInput);
    var _ :- Require(|tx.outputs| == 1, BuySingleOutput);
    var input :- SingleRealEstate(tx.inputs);
    var output :- SingleRealEstate(tx.outputs);
    LoanSettlement(tx, input, output)
  }

  /** Rent as written: four tenancy clauses, then the single output, already
      read as a real estate, is cast to a bank account. */
  function CheckRent(tx: TxView): (r: Step<()>)
    ensures r.Stop?
    ensures r.failure.ClauseFailed? ==>
              r.failure.reason in {RentSingleInput, RentSingleOutput, RentNoPreviousTenant, RentTenantChanges,
                                   RentOnlyTenantChanges, RentOwnerIsNotTenant}
    ensures r.failure.Thrown? ==> r.failure.kind in {ClassCast("RealEstate"), ClassCast("BankAccount")}
    // The counts, then the reading of both states as real estates, come first.
    ensures |tx.inputs| != 1 ==> r == Stop(ClauseFailed(RentSingleInput))
    ensures |tx.inputs| == 1 && |tx.outputs| != 1 ==> r == Stop(ClauseFailed(RentSingleOutput))
    ensures |tx.inputs| == 1 && |tx.outputs| == 1 && !OneEstateInOneOut(tx) ==>
              r == Stop(Thrown(ClassCast("RealEstate")))
  {
    var _ :- Require(|tx.inputs| == 1, RentSingleInput);
    var _ :- Require(|tx.outputs| == 1, RentSingleOutput);
    var input :- SingleRealEstate(tx.inputs);
    var output :- SingleRealEstate(tx.outputs);
    var _ :- Require(input.tenant.None?, RentNoPreviousTenant);
    var _ :- Require(output.tenant.Some?, RentTenantChanges);
    var _ :- Require(input == output.(tenant := input.tenant), RentOnlyTenantChanges);
    var _ :- Require(Some(output.owner) != output.tenant, RentOwnerIsNotTenant);
    RentSettlement(tx, input, output)
  }

  /** TerminateRent: one real estate in and out, the tenant removed and
      nothing else changed, signed by exactly the owner and the old tenant. */
  function CheckTerminateRent(tx: TxView): (r: Step<()>)
    ensures r.Continue? <==>
              && |tx.inputs| == 1 && |tx.outputs| == 1
              && tx.inputs[0].RealEstateState? && tx.outputs[0].RealEstateState?
              && tx.inputs[0].realEstate.tenant.Some?
              && tx.outputs[0].realEstate.tenant.None?
              && DiffersAtMostInTenant(tx.inputs[0].realEstate, tx.outputs[0].realEstate)
              && tx.signers == {tx.inputs[0].realEstate.owner.owningKey,
                                tx.inputs[0].realEstate.tenant.value.owningKey}
    ensures r.Stop? && r.failure.ClauseFailed? ==> r.failure.reason in ClauseLabels(TerminateRent)
    ensures r.Stop? && r.failure.Thrown? ==> r.failure.kind == ClassCast("RealEstate")
    // The first clause that fails names the rejection.
    ensures |tx.inputs| != 1 ==> r == Stop(ClauseFailed(TerminateSingleInput))
    ensures |tx.inputs| == 1 && |tx.outputs| != 1 ==> r == Stop(ClauseFailed(TerminateSingleOutput))
    ensures |tx.inputs| == 1 && |tx.outputs| == 1 && !OneEstateInOneOut(tx) ==>
              r == Stop(Thrown(ClassCast("RealEstate")))
    ensures OneEstateInOneOut(tx) ==>
              var input := tx.inputs[0].realEstate;
              var output := tx.outputs[0].realEstate;
              && (input.tenant.None? ==> r == Stop(ClauseFailed(TerminateHadTenant)))
              && (input.tenant.Some? && output.tenant.Some? ==> r == Stop(ClauseFailed(TerminateTenantRemoved)))
              && (input.tenant.Some? && output.tenant.None? && !DiffersAtMostInTenant(input, output) ==>
                    r == Stop(ClauseFailed(TerminateOnlyTenantChanges)))
              && (input.tenant.Some? && output.tenant.None? && DiffersAtMostInTenant(input, output)
                  && tx.signers != {input.owner.owningKey, input.tenant.value.owningKey} ==>
                    r == Stop(ClauseFailed(TerminateBothSign)))
  {
    var _ :- Require(|tx.inputs| == 1, TerminateSingleInput);
    var _ :- Require(|tx.outputs| == 1, TerminateSingleOutput);
    var input :- SingleRealEstate(tx.inputs);
    var output :- SingleRealEstate(tx.outputs);
    var _ :- Require(input.tenant.Some?, TerminateHadTenant);
    var _ :- Require(output.tenant.None?, TerminateTenantRemoved);
    var _ :- Require(input == output.(tenant := input.tenant), TerminateOnlyTenantChanges);
    ParticipantKeysClosedForm(input);
    ParticipantKeysClosedForm(output);
    Require(tx.signers == AffectedKeys(input, output), TerminateBothSign)
  }

  /** Move: the single consumed account's owner signs and exactly one state is
      produced. */
  function CheckMove(tx: TxView): (r: Step<()>)
    ensures r.Continue? <==>
              && |tx.inputs| == 1 && tx.inputs[0].BankAccountState?
              && tx.inputs[0].account.owner.owningKey in tx.signers
              && |tx.outputs| == 1
    ensures r.Stop? && r.failure.ClauseFailed? ==> r.failure.reason in ClauseLabels(Move)
    // The first clause that fails names the rejection.
    ensures |tx.inputs| == 1 && tx.inputs[0].BankAccountState? ==>
              var input := tx.inputs[0].account;
              && (input.owner.owningKey !in tx.signers ==> r == Stop(ClauseFailed(SignedByPaperOwner)))
              && (input.owner.owningKey in tx.signers && |tx.outputs| != 1 ==>
                    r == Stop(ClauseFailed(StatePropagated)))
    ensures r.Stop? && r.failure.Thrown? ==>
              SingleBankAccount(tx.inputs).Stop? && r.failure == SingleBankAccount(tx.inputs).failure
  {
    var input :- SingleBankAccount(tx.inputs);
    var _ :- Require(input.owner.owningKey in tx.signers, SignedByPaperOwner);
    Require(|tx.outputs| == 1, StatePropagated)
  }

  /** Redeem: the single consumed account has matured by the window's lower
      bound, exactly its face value was received, nothing is produced, and
      its owner signs. */
  function CheckRedeem(tx: TxView): (r: Step<()>)
    ensures r.Continue? <==>
              && |tx.inputs| == 1 && tx.inputs[0].BankAccountState?
              && tx.received == Some(tx.inputs[0].account.currency)
              && FromTime(tx.timeWindow).Some?
              && FromTime(tx.timeWindow).value >= tx.inputs[0].account.maturityDate
              && |tx.outputs| == 0
              && tx.inputs[0].account.owner.owningKey in tx.signers
    ensures r.Stop? && r.failure.ClauseFailed? ==> r.failure.reason in ClauseLabels(Redeem)
    // The first clause that fails names the rejection.
    ensures |tx.inputs| == 1 && tx.inputs[0].BankAccountState? && tx.received.Some?
            && FromTime(tx.timeWindow).Some? ==>
              var input := tx.inputs[0].account;
              var time := FromTime(tx.timeWindow).value;
              && (time < input.maturityDate ==> r == Stop(ClauseFailed(PaperMatured)))
              && (time >= input.maturityDate && tx.received.value != input.currency ==>
                    r == Stop(ClauseFailed(FaceValueReceived)))
              && (time >= input.maturityDate && tx.received.value == input.currency && |tx.outputs| != 0 ==>
                    r == Stop(ClauseFailed(PaperDestroyed)))
              && (time >= input.maturityDate && tx.received.value == input.currency && |tx.outputs| == 0
                  && input.owner.owningKey !in tx.signers ==>
                    r == Stop(ClauseFailed(SignedByPaperOwner)))
    ensures r.Stop? && r.failure.Thrown? ==>
              r.failure.kind in {ListIsEmpty, ListHasMoreThanOneElement, ClassCast("BankAccount"),
                                 CashSumFailed, MissingTimestamp(RedemptionsTimestamped)}
  {
    var input :- SingleBankAccount(tx.inputs);
    var received :- if tx.received.Some? then Continue(tx.received.value) else Stop(Thrown(CashSumFailed));
    var time :- RequireBound(FromTime(tx.timeWindow), RedemptionsTimestamped);
    var _ :- Require(time >= input.maturityDate, PaperMatured);
    var _ :- Require(received == input.currency, FaceValueReceived);
    var _ :- Require(|tx.outputs| == 0, PaperDestroyed);
    Require(input.owner.owningKey in tx.signers, SignedByPaperOwner)
  }

  /** Issue: a single account is produced, issued by a signer, with a positive
      balance and a maturity strictly after the window's upper bound, and
      nothing is consumed. */
  function CheckIssue(tx: TxView): (r: Step<()>)
    ensures r.Continue? <==>
              && |tx.outputs| == 1 && tx.outputs[0].BankAccountState?
              && UntilTime(tx.timeWindow).Some?
              && tx.outputs[0].account.issuance.party.OwningKey() in tx.signers
              && tx.outputs[0].account.currency.quantity > 0
              && UntilTime(tx.timeWindow).value < tx.outputs[0].account.maturityDate
              && |tx.inputs| == 0
    ensures r.Stop? && r.failure.ClauseFailed? ==> r.failure.reason in ClauseLabels(Issue)
    // The first clause that fails names the rejection.
    ensures |tx.outputs| == 1 && tx.outputs[0].BankAccountState? && UntilTime(tx.timeWindow).Some? ==>
              var output := tx.outputs[0].account;
              var time := UntilTime(tx.timeWindow).value;
              var signed := output.issuance.party.OwningKey() in tx.signers;
              && (!signed ==> r == Stop(ClauseFailed(IssuedByCommandSigner)))
              && (signed && output.currency.quantity == 0 ==> r == Stop(ClauseFailed(IssuedAmountPositive)))
              && (signed && output.currency.quantity > 0 && time >= output.maturityDate ==>
                    r == Stop(ClauseFailed(MaturityNotInPast)))
              && (signed && output.currency.quantity > 0 && time < output.maturityDate && |tx.inputs| != 0 ==>
                    r == Stop(ClauseFailed(NoReissue)))
    ensures r.Stop? && r.failure.Thrown? ==>
              r.failure.kind in {ListIsEmpty, ListHasMoreThanOneElement, ClassCast("BankAccount"),
                                 MissingTimestamp(IssuancesTimestamped)}
  {
    var output :- SingleBankAccount(tx.outputs);
    var time :- RequireBound(UntilTime(tx.timeWindow), IssuancesTimestamped);
    var _ :- Require(output.issuance.party.OwningKey() in tx.signers, IssuedByCommandSigner);
    var _ :- Require(output.currency.quantity > 0, IssuedAmountPositive);
    var _ :- Require(time < output.maturityDate, MaturityNotInPast);
    Require(|tx.inputs| == 0, NoReissue)
  }

  /** The rule set of the transaction's command. The tag set is closed, so the
      source's "Invalid command" branch has no counterpart here. */
  function Check(tx: TxView): (r: Step<()>)
    ensures r.Stop? && r.failure.ClauseFailed? ==> r.failure.reason in ClauseLabels(tx.command)
  {
    match tx.command
    case Register => CheckRegister(tx)
    case Sell => CheckSell(tx)
    case SellWithLoan => CheckSellWithLoan(tx)
    case Rent => CheckRent(tx)
    case TerminateRent => CheckTerminateRent(tx)
    case Move => CheckMove(tx)
    case Redeem => CheckRedeem(tx)
    case Issue => CheckIssue(tx)
  }

  /** The contract's verdict on a transaction: every rejection carries one of
      its command's labels, and the unknown-command error never arises. */
  function Verify(tx: TxView): (r: Outcome)
    ensures r.Reject? ==> r.reason in ClauseLabels(tx.command)
    ensures r != Error(InvalidCommand)
    ensures r == Accept ==> tx.command in {Register, TerminateRent, Move, Redeem, Issue}
  {
    match Check(tx)
    case Continue(_) => Accept
    case Stop(ClauseFailed(reason)) => Reject(reason)
    case Stop(Thrown(kind)) => Error(kind)
  }
}

=== FILE: ledger.dfy ===
/** The parts of the ledger platform and of the Kotlin standard library that the
    real-estate contract relies on, reduced to what its decisions depend on:
    keys and identities compared by key, issued amounts, instants and time
    windows, and the errors the platform's helpers throw. */
module Ledger {
  import opened Wrappers

  /** A public key. `NullPublicKey` is the platform's distinguished key used
      to blank out an owner; every other key is `Key(id)` for some identifier. */
  datatype PublicKey = NullPublicKey | Key(id: nat)

  /** A well-known identity. The platform compares identities by their owning
      key only, so the key is all the model keeps. */
  datatype Party = Party(owningKey: PublicKey)

  /** An identity known only by its key. */
  datatype AnonymousParty = AnonymousParty(owningKey: PublicKey)

  /** Either kind of identity; the concrete kind matters only where the code
      casts an identity to `AnonymousParty`. */
  datatype AbstractParty = WellKnown(party: Party) | Anonymous(anonymous: AnonymousParty) {

    function OwningKey(): PublicKey {
      match this
      case WellKnown(p) => p.owningKey
      case Anonymous(a) => a.owningKey
    }
  }

  /** An identity together with an opaque reference it issued under. */
  datatype PartyAndReference = PartyAndReference(party: AbstractParty, reference: seq<bv8>)

  /** The stable identifier of a linear state's lineage; compared by equality only. */
  datatype UniqueIdentifier = UniqueIdentifier(id: nat)

  /** A point in time, as a count of some fixed unit from a fixed epoch; only
      compared. */
  type Instant = int

  /** The optional bounds a transaction may carry. */
  datatype TimeWindow = TimeWindow(fromTime: Option<Instant>, untilTime: Option<Instant>)

  /** A currency as issued by a particular issuer. */
  datatype IssuedCurrency = Issued(issuer: PartyAndReference, currencyCode: string)

  /** A non-negative quantity of an issued currency; two amounts are equal when
      both quantity and token are. */
  datatype Amount = Amount(quantity: nat, token: IssuedCurrency)

  /** The errors the contract can raise other than a failed labelled clause. */
  datatype ErrorKind =
    | ListIsEmpty                         // `single()` on an empty list
    | ListHasMoreThanOneElement           // `single()` on a longer list
    | ClassCast(target: string)           // a state or identity of the wrong concrete type
    | CashSumFailed                       // the cash aggregation over the outputs threw
    | MissingTimestamp(message: string)   // a time-window bound the command needs is absent
    | InvalidCommand                      // a command tag outside the contract's set
    | NotImplemented                      // a member whose body is a placeholder

  /** Kotlin's `List.single()`: the one element of a one-element list, and an
      error naming which way the length was wrong otherwise. */
  function Single<T>(xs: seq<T>): (r: Result<T, ErrorKind>)
    ensures r.Success? <==> |xs| == 1
    ensures r.Success? ==> xs == [r.value]
    ensures |xs| == 0 ==> r == Failure(ListIsEmpty)
    ensures |xs| > 1 ==> r == Failure(ListHasMoreThanOneElement)
  {
    if |xs| == 0 then Failure(ListIsEmpty)
    else if |xs| > 1 then Failure(ListHasMoreThanOneElement)
    else Success(xs[0])
  }
}

=== FILE: real_estate.dfy ===
/** The property record: who owns it, who (if anyone) rents it, its price and
    its address, under a stable lineage identifier. */
module RealEstates {
  import opened Wrappers
  import opened Ledger
  import opened Commands

  /** A real estate. Equality is structural over all five fields, and a
      "copy with one field replaced" is Dafny's `r.(field := v)`. */
  datatype RealEstate = RealEstate(
    linearId: UniqueIdentifier,
    owner: Party,
    value: int,
    tenant: Option<Party>,
    address: string)

  /** Building a real estate with the tenant left at its default. */
  function NewRealEstate(linearId: UniqueIdentifier, owner: Party, value: int, address: string): (re: RealEstate)
    ensures re.tenant.None?
    ensures Participants(re) == [owner]
    ensures re.linearId == linearId && re.owner == owner && re.value == value && re.address == address
  {
    RealEstate(linearId, owner, value, None, address)
  }

  /** The identities whose consent the state requires: the owner, followed by
      the tenant when there is one. */
  function Participants(re: RealEstate): (ps: seq<Party>)
    ensures 1 <= |ps| <= 2 && ps[0] == re.owner
    ensures |ps| == 1 <==> re.tenant.None?
    ensures forall p :: p in ps <==> p == re.owner || re.tenant == Some(p)
  {
    match re.tenant
    case None => [re.owner]
    case Some(t) => [re.owner, t]
  }

  /** The owning keys of a list of parties, as a set (`map { it.owningKey }.toSet()`):
      every party's key and nothing else, and never more keys than parties. */
  function KeySet(parties: seq<Party>): (ks: set<PublicKey>)
    ensures forall i :: 0 <= i < |parties| ==> parties[i].owningKey in ks
    ensures forall k :: k in ks ==> exists i :: 0 <= i < |parties| && parties[i].owningKey == k
    ensures |ks| <= |parties|
  {
    if |parties| == 0 then {}
    else {parties[0].owningKey} + KeySet(parties[1..])
  }

  /** The owning keys of the participants, as a set. */
  function ParticipantKeys(re: RealEstate): (ks: set<PublicKey>)
    ensures re.owner.owningKey in ks
    ensures re.tenant.Some? ==> re.tenant.value.owningKey in ks
    ensures forall k :: k in ks ==>
              k == re.owner.owningKey || (re.tenant.Some? && k == re.tenant.value.owningKey)
  {
    KeySet(Participants(re))
  }

  /** The key set written out: the owner's key, plus the tenant's when present. */
  lemma ParticipantKeysClosedForm(re: RealEstate)
    ensures re.tenant.None? ==> ParticipantKeys(re) == {re.owner.owningKey}
    ensures re.tenant.Some? ==> ParticipantKeys(re) == {re.owner.owningKey, re.tenant.value.owningKey}
  {
  }

  /** A tenant equal to the owner duplicates the participant list but not the
      key set, which is what the signer checks compare against. */
  lemma SelfTenantCollapses(re: RealEstate)
    requires re.tenant == Some(re.owner)
    ensures Participants(re) == [re.owner, re.owner]
    ensures ParticipantKeys(re) == {re.owner.owningKey}
  {
    ParticipantKeysClosedForm(re);
  }

  /** `a` and `b` agree on every field except possibly `owner`. */
  predicate DiffersAtMostInOwner(a: RealEstate, b: RealEstate) {
    && a.linearId == b.linearId
    && a.value == b.value
    && a.tenant == b.tenant
    && a.address == b.address
  }

  /** `a` and `b` agree on every field except possibly `tenant`. */
  predicate DiffersAtMostInTenant(a: RealEstate, b: RealEstate) {
    && a.linearId == b.linearId
    && a.owner == b.owner
    && a.value == b.value
    && a.address == b.address
  }

  /** The contract's "only the owner changed" test, comparing `input` with a
      copy of `output` carrying the input's owner, is exactly agreement on the
      other four fields. */
  lemma OwnerCopyEquality(input: RealEstate, output: RealEstate)
    ensures input == output.(owner := input.owner) <==> DiffersAtMostInOwner(input, output)
  {
  }

  /** The same for "only the tenant changed". */
  lemma TenantCopyEquality(input: RealEstate, output: RealEstate)
    ensures input == output.(tenant := input.tenant) <==> DiffersAtMostInTenant(input, output)
  {
  }

  /** Re-owning a real estate is a placeholder in the source: every call
      throws, and no new state is ever produced. */
  function WithNewOwner(re: RealEstate, newOwner: AbstractParty): (r: Result<CommandAndState<RealEstate>, ErrorKind>)
    ensures r.Failure? && r.error == NotImplemented
  {
    Failure(NotImplemented)
  }
}

=== FILE: wrappers.dfy ===
/** The two wrappers the model shares: `Option` stands for Kotlin's nullable
    types, `Result` for a call that either returns a value or throws. */
module Wrappers {

  /** A value that may be absent (Kotlin `T?`). */
  datatype Option<+T> = None | Some(value: T)

  /** The value a call returns, or the error it throws. */
  datatype Result<+R, +E> = Success(value: R) | Failure(error: E)
}
